=== FILE: README.md ===
# Travel app screens: filter, booking form and contact form

This project models the behaviour in three screens of a React Native
travel-booking showcase app. The rest of the app is presentation.

- **Destinations listing** (`DestinationsScreen`). A search box and a row of
  category pills narrow the list of destinations. A record is listed when its
  name or location contains the query, ignoring case, and when the selected
  category is `All` or equals the record's category. The listing keeps the
  original order. A line above the list reads "`n` place found" or
  "`n` places found". The screen also has a clear-search icon and a "Reset
  Filters" button.
- **Booking form** (`BookingScreen`). This is a class whose fields are the
  screen's state: the form text (`name`, `email`, `phone`, `guests`, `date`)
  and the chosen tour package. The destination the screen was opened for is a
  constant. Typing replaces one field. On submit, the name, email and phone
  are checked first, and only then whether a package or destination is being
  booked. The alert is returned as an `Outcome`. Its OK button is a separate
  method that resets the form. The price summary is written as pure functions:
  - The unit price follows `destination?.price || package?.price || 0`.
  - The total is the unit price times `parseInt(guests || 1)`, and is `None`
    when `parseInt` gives NaN.
- **Contact form** (`ContactScreen`). This is a class holding `name`, `email`,
  `subject` and `message`. Submitting needs name, email and message, and the
  subject is optional. OK clears all four fields. The phone, email and website
  cards build `tel:`, `mailto:` and `https://` URIs from the company's
  details. Each URI is proved to read back, by its scheme, to the field it
  came from.

`JsText` models the JavaScript string operations these screens depend on:

- `toLowerCase`, over ASCII letters.
- `includes`, proved equal to "occurs at some index".
- `parseInt` with no radix, following ECMAScript. It skips leading white
  space, reads an optional sign, switches to radix 16 after `0x`/`0X`, reads
  the longest run of digits, and gives NaN when that run is empty.
- The decimal rendering of a count, proved to read back through `parseInt`.

The destination, package and company records come from a data module that is
not part of this model. Every operation takes them as parameters (module
`TravelData`).

The guest count is not coerced to a positive number. Only a blank field
counts as 1. A count that does not begin with a number makes the total NaN,
and `"0"` or `"-2"` are used as they are. See `GuestCount`, `Total`,
`TotalOfBlank`, `TotalOfNumeral` and `TotalNaN`.

## Model

| member | source | states |
|---|---|---|
| `JsText.Lower` | src/screens/DestinationsScreen.js:23-24 | `toLowerCase` keeps the length, turns each capital letter into its own small letter (code point plus 32), and leaves every other character as it was |
| `JsText.IncludesIff` | src/screens/DestinationsScreen.js:23-24 | `includes` holds exactly when the needle occurs at some index of the text |
| `JsText.IncludesTransitive` | src/screens/DestinationsScreen.js:23-24 | a text that includes a string includes everything that string includes |
| `JsText.IncludesEmpty` | src/screens/DestinationsScreen.js:23-24 | every text includes the empty string |
| `JsText.TrimStart` | src/screens/BookingScreen.js:230 | `parseInt`'s first step removes exactly the leading white space: the result is a suffix, everything dropped is white space, and the result does not start with white space |
| `JsText.DigitRun` | src/screens/BookingScreen.js:230 | the digits `parseInt` reads are the longest prefix of digits of the radix |
| `JsText.Decimal` | src/screens/DestinationsScreen.js:96 | the rendered count is a non-empty string of decimal digits that denotes the count. It starts with `0` only when it is exactly `"0"`, so it has no leading zero |
| `JsText.ParseIntNumeral` | src/screens/BookingScreen.js:230 | `parseInt` reads back a numeral. It stops at the first character that does not continue the numeral, and after a lone `0` an `x` switches to hexadecimal |
| `JsText.ParseIntSignedNumeral` | src/screens/BookingScreen.js:230 | after a `-` the numeral reads back negated, and after a `+` unchanged |
| `JsText.ParseIntDigits` | src/screens/BookingScreen.js:230 | `parseInt` reads any run of decimal digits as its value, leading zeros included (`"007"` is 7), up to the first character that is not a digit. The one exception is a lone `0` followed by `x` or `X`, which starts a hexadecimal numeral |
| `JsText.ParseIntHex` | src/screens/BookingScreen.js:230 | after `0x` or `0X`, `parseInt` reads the run of hexadecimal digits as a base-16 value (`"0x1F"` is 31), up to the first character that is not one |
| `JsText.ParseIntSign` | src/screens/BookingScreen.js:230 | a sign in front of text that starts with a digit: `-` negates what `parseInt` reads from that text (`"-007"` is -7, `"-0x1F"` is -31) and keeps NaN as NaN, and `+` changes nothing |
| `JsText.ParseIntSkipsWhiteSpace` | src/screens/BookingScreen.js:230 | leading white space never changes what `parseInt` returns |
| `JsText.ParseInt` | src/screens/BookingScreen.js:230 | `parseInt` is NaN exactly when, after the white space, no number begins: an optional sign, then a decimal digit, or `0x`/`0X` followed by a hexadecimal digit |
| `JsText.ParseIntNaN` | src/screens/BookingScreen.js:230 | after the white space, a first character that is not a sign or a digit makes `parseInt` NaN |
| `JsText.ParseIntSignNaN` | src/screens/BookingScreen.js:230 | a sign followed by no decimal digit (`"-"`, `"+x"`) makes `parseInt` NaN |
| `JsText.ParseIntHexNaN` | src/screens/BookingScreen.js:230 | `0x` or `0X` followed by no hexadecimal digit (`"0x"`, `"0xg"`) makes `parseInt` NaN |
| `DestinationsScreen.Filter` | src/screens/DestinationsScreen.js:22-27 | soundness: every listed record is in the input and passes the search test and the category test. Completeness: every input record that passes both is listed |
| `DestinationsScreen.FilterKeepsOrder` | src/screens/DestinationsScreen.js:22-27 | the listing is the subsequence of the input made of exactly the positions that pass both tests, with their relative order kept |
| `DestinationsScreen.FilterOfShown` | src/screens/DestinationsScreen.js:22-27 | a list whose every record passes is listed unchanged |
| `DestinationsScreen.FilterCongruent` | src/screens/DestinationsScreen.js:22-27 | two settings that let the same records through give the same listing |
| `DestinationsScreen.FilterTwice` | src/screens/DestinationsScreen.js:22-27 | filtering a filtered list is one filter by the conjunction of the two settings |
| `DestinationsScreen.FilterIdempotent` | src/screens/DestinationsScreen.js:22-27 | filtering the listing again with the same query and category returns it unchanged |
| `DestinationsScreen.FilterIsConjunction` | src/screens/DestinationsScreen.js:26 | the two tests combine with AND: search-then-category and category-then-search both give the screen's listing |
| `DestinationsScreen.EmptyQueryMatches` | src/screens/DestinationsScreen.js:23-24 | the empty query passes the search test for every record |
| `DestinationsScreen.FilterAllBySearch` | src/screens/DestinationsScreen.js:25 | with category `All`, the listing is exactly the records that match the query, in order. The category plays no part |
| `DestinationsScreen.FilterEmptyQueryByCategory` | src/screens/DestinationsScreen.js:22-27 | with the empty query, the listing is exactly the records of the category, in order |
| `DestinationsScreen.FilterNothing` | src/screens/DestinationsScreen.js:22-27 | the empty query with category `All` lists the whole input |
| `DestinationsScreen.FilterIgnoresCase` | src/screens/DestinationsScreen.js:23-24 | two queries with the same lower-case form give the same listing |
| `DestinationsScreen.TypeQuery` | src/screens/DestinationsScreen.js:54-56 | typing replaces the query and keeps the category. The clear icon shows exactly when the query is not empty |
| `DestinationsScreen.TypeQueryNarrows` | src/screens/DestinationsScreen.js:22-27 | typing a query that contains the current one, ignoring case, lists exactly the current records that match the new query |
| `DestinationsScreen.SelectCategory` | src/screens/DestinationsScreen.js:77 | tapping a pill replaces the category and keeps the query |
| `DestinationsScreen.SelectCategoryNarrows` | src/screens/DestinationsScreen.js:22-27 | a pill lists exactly the records of that category among those the query lists under `All` |
| `DestinationsScreen.ClearSearch` | src/screens/DestinationsScreen.js:56-57 | clearing keeps the category and empties the query, so the clear icon goes away |
| `DestinationsScreen.ResetFilters` | src/screens/DestinationsScreen.js:156-159 | reset brings both pieces of state back to their opening values, an empty query and `All` |
| `DestinationsScreen.InitialShowsAll` | src/screens/DestinationsScreen.js:17-18 | the opening state (empty query, `All`) lists every record |
| `DestinationsScreen.ResetShowsAll` | src/screens/DestinationsScreen.js:156-159 | reset sets the query to empty and the category to `All`. Afterwards every record is listed, so the reset button goes away unless there are no records |
| `DestinationsScreen.ClearSearchWidens` | src/screens/DestinationsScreen.js:56-57 | clearing the search keeps the category and lists exactly that category's records. The earlier listing is what the old query picks out of them |
| `DestinationsScreen.ResultsLabel` | src/screens/DestinationsScreen.js:96 | the line starts with the count written as its plain decimal numeral (`Decimal`), which `parseInt` reads back. It ends in "place found" exactly when the count is 1, and in "places found" otherwise, including 0 |
| `DestinationsScreen.LabelEnding` | src/screens/DestinationsScreen.js:96 | after a numeral, exactly one of the two endings is present |
| `DestinationsScreen.SearchExample` | src/screens/DestinationsScreen.js:22-27 | with "Goa Beach" and "Jaipur Fort", searching "jai" under `All` lists only the fort |
| `DestinationsScreen.CategoryExample` | src/screens/DestinationsScreen.js:22-27 | the `Beach` pill with an empty search lists only the beach |
| `BookingScreen.BookingDetails.With` | src/screens/BookingScreen.js:28-30 | replacing one field sets exactly that field and leaves the other four unchanged |
| `BookingScreen.BookingForm.constructor` | src/screens/BookingScreen.js:17-26 | initial state: `guests` is `"1"`, the other fields are empty, no package is chosen, and the opening destination is kept |
| `BookingScreen.BookingForm.HandleInputChange` | src/screens/BookingScreen.js:28-30 | the field takes the typed text. Every other field and the chosen package are unchanged |
| `BookingScreen.BookingForm.ChoosePackage` | src/screens/BookingScreen.js:116 | tapping a package card chooses it and leaves the form text alone |
| `BookingScreen.BookingForm.HandleBooking` | src/screens/BookingScreen.js:32-47 | Missing Information exactly when name, email or phone is empty, whatever the package. Select Package exactly when those are filled and neither a package nor a destination is present. Otherwise success, naming the customer. Only emptiness is checked, and guests and date are never looked at. No outcome changes state |
| `BookingScreen.BookingForm.ConfirmBooking` | src/screens/BookingScreen.js:48-61 | OK resets the form to its initial values and clears the package |
| `BookingScreen.BookingForm.PackagePrice` | src/screens/BookingScreen.js:212-216 | a non-zero destination price wins. Otherwise the shown price is one of the prices on offer, and it is 0 only when every price on offer is 0 or there is none |
| `BookingScreen.BookingForm.TotalAmount` | src/screens/BookingScreen.js:228-231 | the shown total is `Total` of the form's state, so the lemmas about `Total` apply to it. A blank guests field gives the package price. The total is NaN exactly when the field is not blank and no number begins it, and otherwise it is the package price times the guest count |
| `BookingScreen.UnitPrice` | src/screens/BookingScreen.js:212-216 | a non-zero destination price wins. Otherwise the result is one of the prices on offer, and it is 0 only when every price on offer is 0 or there is none |
| `BookingScreen.GuestCount` | src/screens/BookingScreen.js:230 | a blank guests field counts as 1. Any other text is read by `parseInt` as it is |
| `BookingScreen.Total` | src/screens/BookingScreen.js:228-231 | a blank guests field gives the unit price. The total is NaN exactly when the field is not blank and no number begins it, and otherwise it is the unit price times the guest count |
| `BookingScreen.TotalOfNumeral` | src/screens/BookingScreen.js:229-230 | guests typed as a numeral, possibly followed by non-digits, give the unit price times that number |
| `BookingScreen.TotalOfDigits` | src/screens/BookingScreen.js:228-231 | guests typed as any run of digits, leading zeros included, give the unit price times the run's value |
| `BookingScreen.TotalOfBlank` | src/screens/BookingScreen.js:229-230 | a blank guests field makes the total equal to the unit price |
| `BookingScreen.TotalNaN` | src/screens/BookingScreen.js:229-230 | guests starting, after white space, with anything but a sign or a digit make the total NaN |
| `ContactScreen.ContactDetails.With` | src/screens/ContactScreen.js:25-27 | replacing one field sets exactly that field and leaves the other three unchanged |
| `ContactScreen.ContactForm.constructor` | src/screens/ContactScreen.js:18-23 | all four fields start empty |
| `ContactScreen.ContactForm.HandleInputChange` | src/screens/ContactScreen.js:25-27 | the field takes the typed text and the other three keep theirs |
| `ContactScreen.ContactForm.HandleSubmit` | src/screens/ContactScreen.js:29-47 | Missing Information exactly when name, email or message is empty. Otherwise success, naming the sender. Neither outcome changes the form |
| `ContactScreen.ContactForm.ConfirmSent` | src/screens/ContactScreen.js:41-43 | OK clears all four fields |
| `ContactScreen.SubjectIsOptional` | src/screens/ContactScreen.js:30 | the subject never decides whether a message is accepted |
| `ContactScreen.CallUri` | src/screens/ContactScreen.js:49-51 | the phone URI is `tel:` followed by exactly the company's phone number, and reads back to it |
| `ContactScreen.EmailUri` | src/screens/ContactScreen.js:53-55 | the email URI is `mailto:` followed by exactly the company's address, and reads back to it |
| `ContactScreen.WebsiteUri` | src/screens/ContactScreen.js:57-59 | the website URI is `https://` followed by exactly the company's site, and reads back to it |

## Left out

- Rendering, styles, theme constants, and the button and card components: these are layout only.
- Navigation calls (`navigate`, `goBack`): these are framework calls.
- Entrance and scroll animations: these are asynchronous and use floating point.
- Opening URIs through the device's link handler: this is OS I/O. Only building the URI strings is modelled.
- The alert dialog as a modal. Each submission returns an `Outcome`. The OK button is a method the caller invokes after a success outcome, and it resets unconditionally, as the callback does. The alert body texts are not modelled. Only the customer's or sender's name that they quote is kept.
- The home and destination-detail screens: they hold only static fixtures, a tab selector and a fixed slice of the list.
- `toLocaleString` formatting of prices, which depends on the locale. The "×guests" summary line shows the raw text and is not modelled.
- Full Unicode case mapping: `Lower` maps ASCII letters only.
- Destination `rating` and `image`, and package `image`: no logic reads them.
- Numbers are unbounded integers. This leaves out precision loss above 2^53 in `parseInt` and in the total, floating-point prices, and the sign of `-0`.
- `BookingScreen.BookingForm.ChoosePackage`: the package cards are shown only when no destination was passed in. The method does not require this, because the handler itself does not check it.

=== FILE: booking_screen.dfy ===
/**
 * The booking form: the customer's details, an optional tour package (or a
 * destination the screen was opened for), a two-stage check on submit, and
 * the price summary.
 */
module BookingScreen {
  import opened Options
  import opened TravelData
  import JsText

  /** The text inputs of the form. */
  datatype Field = Name | Email | Phone | Guests | Date

  /** The form's text, all of it held as typed. */
  datatype BookingDetails = BookingDetails(name: string, email: string, phone: string, guests: string, date: string)
  {
    function Get(f: Field): string {
      match f
      case Name => name
      case Email => email
      case Phone => phone
      case Guests => guests
      case Date => date
    }

    /** The same details with one field replaced (`{ ...prev, [field]: value }`). */
    function With(f: Field, v: string): (r: BookingDetails)
      ensures r.Get(f) == v
      ensures forall g :: g != f ==> r.Get(g) == Get(g)
    {
      match f
      case Name => this.(name := v)
      case Email => this.(email := v)
      case Phone => this.(phone := v)
      case Guests => this.(guests := v)
      case Date => this.(date := v)
    }

    /** The first check on submit: the three required fields are not empty. */
    predicate HasRequired() {
      name != "" && email != "" && phone != ""
    }
  }

  /** The details when the screen opens and after a confirmed booking: one guest, everything else blank. */
  const BlankDetails: BookingDetails := BookingDetails("", "", "", "1", "")

  /** The alert a submission raises. */
  datatype Outcome =
    | MissingInformation
    | SelectPackage
    | BookingSubmitted(customer: string)

  class BookingForm {
    /** The destination the screen was opened for, if any (a navigation parameter). */
    const preSelected: Option<Destination>
    var formData: BookingDetails
    var selectedPackage: Option<TourPackage>

    constructor (preSelected: Option<Destination>)
      ensures this.preSelected == preSelected
      ensures formData == BlankDetails && selectedPackage == None
    {
      this.preSelected := preSelected;
      formData := BlankDetails;
      selectedPackage := None;
    }

    /** Typing into one input: that field takes the new text and nothing else changes. */
    method HandleInputChange(f: Field, v: string)
      modifies this
      ensures formData == old(formData).With(f, v)
      ensures formData.Get(f) == v
      ensures forall g :: g != f ==> formData.Get(g) == old(formData.Get(g))
      ensures selectedPackage == old(selectedPackage)
    {
      formData := formData.With(f, v);
    }

    /** Tapping a package card. */
    method ChoosePackage(p: TourPackage)
      modifies this
      ensures selectedPackage == Some(p)
      ensures formData == old(formData)
    {
      selectedPackage := Some(p);
    }

    /**
     * Submitting. The required fields are checked first, then that something
     * is being booked; only emptiness is checked, so any non-empty text (white
     * space too) passes, and the guests and date are never looked at. No
     * outcome changes the form: the reset waits for the alert's OK.
     */
    method HandleBooking() returns (o: Outcome)
      ensures o == MissingInformation <==> !formData.HasRequired()
      ensures o == SelectPackage <==> formData.HasRequired() && selectedPackage == None && preSelected == None
      ensures o.BookingSubmitted? <==> formData.HasRequired() && (selectedPackage.Some? || preSelected.Some?)
      ensures o.BookingSubmitted? ==> o.customer == formData.name
    {
      if formData.name == "" || formData.email == "" || formData.phone == "" {
        return MissingInformation;
      }
      if selectedPackage == None && preSelected == None {
        return SelectPackage;
      }
      return BookingSubmitted(formData.name);
    }

    /** The OK button of the success alert: the form goes back to its opening state. */
    method ConfirmBooking()
      modifies this
      ensures formData == BlankDetails && selectedPackage == None
    {
      formData := BlankDetails;
      selectedPackage := None;
    }

    /** The "Package Price" line of the summary. */
    function PackagePrice(): (price: int)
      reads this
      ensures preSelected.Some? && preSelected.value.price != 0 ==> price == preSelected.value.price
      ensures price == 0 || price in PriceCandidates(preSelected, selectedPackage)
      ensures price == 0 ==> forall p :: p in PriceCandidates(preSelected, selectedPackage) ==> p == 0
    {
      UnitPrice(preSelected, selectedPackage)
    }

    /** The "Total Amount" line of the summary; `None` is NaN. */
    function TotalAmount(): (total: Option<int>)
      reads this
      ensures total == Total(preSelected, selectedPackage, formData.guests)
      ensures formData.guests == "" ==> total == Some(PackagePrice())
      ensures total == None <==> formData.guests != "" && !JsText.StartsNumber(JsText.TrimStart(formData.guests))
      ensures total.Some? ==> GuestCount(formData.guests).Some?
                              && total.value == PackagePrice() * GuestCount(formData.guests).value
    {
      Total(preSelected, selectedPackage, formData.guests)
    }
  }

  /** The prices on offer: the destination's, then the package's. */
  function PriceCandidates(pre: Option<Destination>, pkg: Option<TourPackage>): seq<int> {
    (if pre.Some? then [pre.value.price] else []) + (if pkg.Some? then [pkg.value.price] else [])
  }

  /**
   * `destination?.price || package?.price || 0`: the first price that is
   * present and not zero, else zero.
   */
  function UnitPrice(pre: Option<Destination>, pkg: Option<TourPackage>): (price: int)
    ensures pre.Some? && pre.value.price != 0 ==> price == pre.value.price
    ensures price == 0 || price in PriceCandidates(pre, pkg)
    ensures price == 0 ==> forall p :: p in PriceCandidates(pre, pkg) ==> p == 0
  {
    if pre.Some? && pre.value.price != 0 then pre.value.price
    else if pkg.Some? && pkg.value.price != 0 then pkg.value.price
    else 0
  }

  /** `parseInt(guests || 1)`: a blank field counts as the number 1, which reads back as 1. */
  function GuestCount(guests: string): (n: Option<int>)
    ensures guests == "" ==> n == Some(1)
    ensures guests != "" ==> n == JsText.ParseInt(guests)
  {
    var text := if guests == "" then "1" else guests;
    assert guests == "" ==> text == JsText.Decimal(1) + "";
    JsText.ParseIntNumeral(1, "");
    JsText.ParseInt(text)
  }

  /** The total: the unit price times the guest count, NaN when the count is. */
  function Total(pre: Option<Destination>, pkg: Option<TourPackage>, guests: string): (r: Option<int>)
    ensures guests == "" ==> r == Some(UnitPrice(pre, pkg))
    ensures r == None <==> guests != "" && !JsText.StartsNumber(JsText.TrimStart(guests))
    ensures r.Some? ==> GuestCount(guests).Some? && r.value == UnitPrice(pre, pkg) * GuestCount(guests).value
  {
    match GuestCount(guests)
    case None => None
    case Some(n) => Some(UnitPrice(pre, pkg) * n)
  }

  /** Guests typed as a numeral, with anything after it that does not continue it, multiply the unit price. */
  lemma TotalOfNumeral(pre: Option<Destination>, pkg: Option<TourPackage>, n: nat, rest: string)
    requires rest == [] || (!JsText.IsDigit(rest[0], 10) && (n == 0 ==> rest[0] != 'x' && rest[0] != 'X'))
    ensures Total(pre, pkg, JsText.Decimal(n) + rest) == Some(UnitPrice(pre, pkg) * n)
  {
    JsText.ParseIntNumeral(n, rest);
  }

  /** Guests typed as any run of digits, leading zeros included, multiply the unit price by its value. */
  lemma TotalOfDigits(pre: Option<Destination>, pkg: Option<TourPackage>, p: string, rest: string)
    requires p != [] && forall i :: 0 <= i < |p| ==> JsText.IsDigit(p[i], 10)
    requires rest == [] || !JsText.IsDigit(rest[0], 10)
    requires !(p == "0" && rest != [] && (rest[0] == 'x' || rest[0] == 'X'))
    ensures Total(pre, pkg, p + rest) == Some(UnitPrice(pre, pkg) * JsText.DigitsValue(p, 10))
  {
    JsText.ParseIntDigits(p, rest);
  }

  /** A blank guest count is one guest. */
  lemma TotalOfBlank(pre: Option<Destination>, pkg: Option<TourPackage>)
    ensures Total(pre, pkg, "") == Some(UnitPrice(pre, pkg))
  {
  }

  /** Guests that start (after white space) with anything but a sign or a digit make the total NaN. */
  lemma TotalNaN(pre: Option<Destination>, pkg: Option<TourPackage>, w: string, c: char, rest: string)
    requires forall i :: 0 <= i < |w| ==> JsText.IsStrWhiteSpace(w[i])
    requires !JsText.IsStrWhiteSpace(c) && !JsText.IsDigit(c, 10) && c != '+' && c != '-'
    ensures Total(pre, pkg, w + [c] + rest) == None
  {
    JsText.ParseIntNaN(w, c, rest);
  }

  /** A booking from start to finish, as a caller sees it through the contracts. */
  method BookingWalkthrough(p: TourPackage)
  {
    var form := new BookingForm(None);
    var o := form.HandleBooking();
    assert o == MissingInformation;
    form.HandleInputChange(Name, "Asha");
    form.HandleInputChange(Email, "asha@example.com");
    form.HandleInputChange(Phone, " ");
    o := form.HandleBooking();
    assert o == SelectPackage;
    form.ChoosePackage(p);
    o := form.HandleBooking();
    assert o == BookingSubmitted("Asha");
    form.ConfirmBooking();
    assert form.formData == BlankDetails && form.selectedPackage == None;
  }
}

=== FILE: contact_screen.dfy ===
/**
 * The contact screen: a message form with three required fields and an
 * optional subject, and the links that dial, mail or browse to the company.
 */
module ContactScreen {
  import opened Options
  import opened TravelData

  /** The text inputs of the form. */
  datatype Field = Name | Email | Subject | Message

  /** The form's text, held as typed. */
  datatype ContactDetails = ContactDetails(name: string, email: string, subject: string, message: string)
  {
    function Get(f: Field): string {
      match f
      case Name => name
      case Email => email
      case Subject => subject
      case Message => message
    }

    /** The same details with one field replaced (`{ ...prev, [field]: value }`). */
    function With(f: Field, v: string): (r: ContactDetails)
      ensures r.Get(f) == v
      ensures forall g :: g != f ==> r.Get(g) == Get(g)
    {
      match f
      case Name => this.(name := v)
      case Email => this.(email := v)
      case Subject => this.(subject := v)
      case Message => this.(message := v)
    }

    /** The check on submit: name, email and message are not empty; the subject may be. */
    predicate HasRequired() {
      name != "" && email != "" && message != ""
    }
  }

  /** The details when the screen opens and after a confirmed message. */
  const BlankDetails: ContactDetails := ContactDetails("", "", "", "")

  /** The alert a submission raises. */
  datatype Outcome =
    | MissingInformation
    | MessageSent(sender: string)

  class ContactForm {
    var formData: ContactDetails

    constructor ()
      ensures formData == BlankDetails
    {
      formData := BlankDetails;
    }

    /** Typing into one input: that field takes the new text and the other three keep theirs. */
    method HandleInputChange(f: Field, v: string)
      modifies this
      ensures formData == old(formData).With(f, v)
      ensures formData.Get(f) == v
      ensures forall g :: g != f ==> formData.Get(g) == old(formData.Get(g))
    {
      formData := formData.With(f, v);
    }

    /**
     * Submitting: rejected exactly when name, email or message is empty,
     * whatever the subject holds. Neither outcome changes the form: the reset
     * waits for the alert's OK.
     */
    method HandleSubmit() returns (o: Outcome)
      ensures o == MissingInformation <==> !formData.HasRequired()
      ensures o.MessageSent? <==> formData.HasRequired()
      ensures o.MessageSent? ==> o.sender == formData.name
    {
      if formData.name == "" || formData.email == "" || formData.message == "" {
        return MissingInformation;
      }
      return MessageSent(formData.name);
    }

    /** The OK button of the success alert: all four fields are cleared. */
    method ConfirmSent()
      modifies this
      ensures formData == BlankDetails
    {
      formData := BlankDetails;
    }
  }

  /** The subject never decides whether a message is accepted. */
  lemma SubjectIsOptional(d: ContactDetails, subject: string)
    ensures d.With(Subject, subject).HasRequired() <==> d.HasRequired()
  {
    assert d.With(Subject, subject) == d.(subject := subject);
  }

  // ---------------------------------------------------------------------
  // Links
  // ---------------------------------------------------------------------

  /** What a link asks the device to do. */
  datatype Link = Dial(number: string) | Mail(address: string) | Browse(host: string)

  /** Reads a link back from its URI by its scheme; `None` for any other scheme. */
  function ParseLink(uri: string): Option<Link> {
    if "tel:" <= uri then Some(Dial(uri[4..]))
    else if "mailto:" <= uri then Some(Mail(uri[7..]))
    else if "https://" <= uri then Some(Browse(uri[8..]))
    else None
  }

  /** The URI the phone card opens: the company's number under the `tel:` scheme. */
  function CallUri(info: CompanyInfo): (uri: string)
    ensures ParseLink(uri) == Some(Dial(info.phone))
  {
    var uri := "tel:" + info.phone;
    assert uri[4..] == info.phone;
    uri
  }

  /** The URI the email card opens: the company's address under the `mailto:` scheme. */
  function EmailUri(info: CompanyInfo): (uri: string)
    ensures ParseLink(uri) == Some(Mail(info.email))
  {
    var uri := "mailto:" + info.email;
    assert uri[7..] == info.email;
    assert !("tel:" <= uri) by { assert uri[0] == 'm'; }
    uri
  }

  /** The URI the website card opens: the company's site under `https://`. */
  function WebsiteUri(info: CompanyInfo): (uri: string)
    ensures ParseLink(uri) == Some(Browse(info.website))
  {
    var uri := "https://" + info.website;
    assert uri[8..] == info.website;
    assert !("tel:" <= uri) && !("mailto:" <= uri) by { assert uri[0] == 'h'; }
    uri
  }

  /** A message from start to finish, as a caller sees it through the contracts. */
  method ContactWalkthrough()
  {
    var form := new ContactForm();
    form.HandleInputChange(Name, "Ravi");
    form.HandleInputChange(Email, "ravi@example.com");
    var o := form.HandleSubmit();
    assert o == MissingInformation;
    form.HandleInputChange(Message, "Hello");
    o := form.HandleSubmit();
    assert o == MessageSent("Ravi");
    form.ConfirmSent();
    assert form.formData == BlankDetails;
  }
}

=== FILE: destinations_screen.dfy ===
/**
 * The destinations listing: a search box and a row of category pills narrow
 * the list of destinations, and a line above the list says how many places
 * are shown.
 */
module DestinationsScreen {
  import opened Options
  import opened TravelData
  import opened JsText

  /** The category that switches the category test off. */
  const All: string := "All"

  // ---------------------------------------------------------------------
  // The filter
  // ---------------------------------------------------------------------

  /** The search test: the name or the location contains the query, ignoring case. */
  predicate MatchesSearch(d: Destination, query: string) {
    Includes(Lower(d.name), Lower(query)) || Includes(Lower(d.location), Lower(query))
  }

  /** The category test: `All` lets every record through, any other category only its own records. */
  predicate MatchesCategory(d: Destination, category: string) {
    category == All || d.category == category
  }

  /** A record is listed when it passes both tests. */
  predicate Shown(d: Destination, query: string, category: string) {
    MatchesSearch(d, query) && MatchesCategory(d, category)
  }

  /** `DESTINATIONS.filter(...)`: the records that pass both tests, in their original order. */
  function Filter(ds: seq<Destination>, query: string, category: string): (r: seq<Destination>)
    ensures |r| <= |ds|
    ensures forall d :: d in r ==> d in ds && Shown(d, query, category)
    ensures forall d :: d in ds && Shown(d, query, category) ==> d in r
  {
    if ds == [] then []
    else if Shown(ds[0], query, category) then [ds[0]] + Filter(ds[1..], query, category)
    else Filter(ds[1..], query, category)
  }

  /** `idx` is an increasing list of positions in `ds` whose records, in turn, make up `r`. */
  ghost predicate SelectedBy(r: seq<Destination>, ds: seq<Destination>, idx: seq<nat>) {
    |idx| == |r|
    && (forall k :: 0 <= k < |idx| ==> idx[k] < |ds| && r[k] == ds[idx[k]])
    && (forall k, l :: 0 <= k < l < |idx| ==> idx[k] < idx[l])
  }

  /**
   * The result is the subsequence of the input made of exactly the positions
   * whose records pass both tests: nothing is dropped, nothing is added, and
   * the relative order is kept.
   */
  lemma {:induction false} FilterKeepsOrder(ds: seq<Destination>, query: string, category: string)
    returns (idx: seq<nat>)
    ensures SelectedBy(Filter(ds, query, category), ds, idx)
    ensures forall j :: 0 <= j < |ds| ==> (j in idx <==> Shown(ds[j], query, category))
  {
    if ds == [] {
      idx := [];
    } else {
      var rest := FilterKeepsOrder(ds[1..], query, category);
      var shifted := Shift(rest);
      SelectedByTail(Filter(ds[1..], query, category), ds, rest);
      if Shown(ds[0], query, category) {
        idx := [0] + shifted;
        SelectedByCons(Filter(ds[1..], query, category), ds, shifted);
      } else {
        idx := shifted;
      }
      forall j | 0 <= j < |ds| ensures j in idx <==> Shown(ds[j], query, category) {
        if j > 0 {
          assert ds[j] == ds[1..][j - 1];
        }
      }
    }
  }

  /** Every position moved one place to the right. */
  function Shift(idx: seq<nat>): (r: seq<nat>)
    ensures |r| == |idx|
    ensures forall k :: 0 <= k < |r| ==> r[k] == idx[k] + 1
    ensures forall j: nat :: j in r <==> j > 0 && j - 1 in idx
  {
    var r := seq(|idx|, k requires 0 <= k < |idx| => idx[k] + 1);
    assert forall j: nat :: j > 0 && j - 1 in idx ==> j in r by {
      forall j: nat | j > 0 && j - 1 in idx ensures j in r {
        var k :| 0 <= k < |idx| && idx[k] == j - 1;
        assert r[k] == j;
      }
    }
    r
  }

  /** A selection from the tail of `ds` is a selection from `ds`, one place further right. */
  lemma SelectedByTail(r: seq<Destination>, ds: seq<Destination>, idx: seq<nat>)
    requires ds != [] && SelectedBy(r, ds[1..], idx)
    ensures SelectedBy(r, ds, Shift(idx))
  {
  }

  /** Putting the first record of `ds` in front of a selection that avoids position 0. */
  lemma SelectedByCons(r: seq<Destination>, ds: seq<Destination>, idx: seq<nat>)
    requires ds != [] && SelectedBy(r, ds, idx)
    requires forall k :: 0 <= k < |idx| ==> idx[k] > 0
    ensures SelectedBy([ds[0]] + r, ds, [0] + idx)
  {
  }

  /** A list whose every record passes both tests is listed unchanged. */
  lemma {:induction false} FilterOfShown(ds: seq<Destination>, query: string, category: string)
    requires forall d :: d in ds ==> Shown(d, query, category)
    ensures Filter(ds, query, category) == ds
  {
    if ds != [] {
      FilterOfShown(ds[1..], query, category);
    }
  }

  /** Two pairs of settings that let the same records of `ds` through list the same result. */
  lemma {:induction false} FilterCongruent(ds: seq<Destination>, q1: string, c1: string, q2: string, c2: string)
    requires forall d :: d in ds ==> (Shown(d, q1, c1) <==> Shown(d, q2, c2))
    ensures Filter(ds, q1, c1) == Filter(ds, q2, c2)
  {
    if ds != [] {
      FilterCongruent(ds[1..], q1, c1, q2, c2);
    }
  }

  /** Filtering a filtered list is filtering once by the conjunction of the two settings. */
  lemma {:induction false} FilterTwice(ds: seq<Destination>, q1: string, c1: string, q2: string, c2: string,
                                       q: string, c: string)
    requires forall d :: d in ds ==> (Shown(d, q, c) <==> Shown(d, q1, c1) && Shown(d, q2, c2))
    ensures Filter(Filter(ds, q1, c1), q2, c2) == Filter(ds, q, c)
  {
    if ds != [] {
      FilterTwice(ds[1..], q1, c1, q2, c2, q, c);
    }
  }

  /** Filtering the listed records again with the same settings changes nothing. */
  lemma {:induction false} FilterIdempotent(ds: seq<Destination>, query: string, category: string)
    ensures Filter(Filter(ds, query, category), query, category) == Filter(ds, query, category)
  {
    FilterOfShown(Filter(ds, query, category), query, category);
  }

  /** The empty query is contained in every name, so it passes every record. */
  lemma EmptyQueryMatches(d: Destination)
    ensures MatchesSearch(d, "")
  {
    assert Lower("") == "";
    IncludesEmpty(Lower(d.name));
  }

  /** With category `All` the result is exactly the records that match the query, in order. */
  lemma FilterAllBySearch(ds: seq<Destination>, query: string) returns (idx: seq<nat>)
    ensures SelectedBy(Filter(ds, query, All), ds, idx)
    ensures forall j :: 0 <= j < |ds| ==> (j in idx <==> MatchesSearch(ds[j], query))
  {
    idx := FilterKeepsOrder(ds, query, All);
  }

  /** With the empty query the result is exactly the records of the category, in order. */
  lemma FilterEmptyQueryByCategory(ds: seq<Destination>, category: string) returns (idx: seq<nat>)
    ensures SelectedBy(Filter(ds, "", category), ds, idx)
    ensures forall j :: 0 <= j < |ds| ==> (j in idx <==> MatchesCategory(ds[j], category))
  {
    forall d | d in ds {
      EmptyQueryMatches(d);
    }
    idx := FilterKeepsOrder(ds, "", category);
  }

  /** The empty query with category `All` lists every record. */
  lemma {:induction false} FilterNothing(ds: seq<Destination>)
    ensures Filter(ds, "", All) == ds
  {
    forall d | d in ds {
      EmptyQueryMatches(d);
    }
    FilterOfShown(ds, "", All);
  }

  /**
   * The two tests combine with AND: searching first and narrowing by
   * category afterwards, or the other way round, gives the screen's result.
   */
  lemma {:induction false} FilterIsConjunction(ds: seq<Destination>, query: string, category: string)
    ensures Filter(Filter(ds, query, All), "", category) == Filter(ds, query, category)
    ensures Filter(Filter(ds, "", category), query, All) == Filter(ds, query, category)
  {
    forall d | d in ds {
      EmptyQueryMatches(d);
    }
    FilterTwice(ds, query, All, "", category, query, category);
    FilterTwice(ds, "", category, query, All, query, category);
  }

  /** Queries that differ only in the case of letters list the same records. */
  lemma {:induction false} FilterIgnoresCase(ds: seq<Destination>, q1: string, q2: string, category: string)
    requires Lower(q1) == Lower(q2)
    ensures Filter(ds, q1, category) == Filter(ds, q2, category)
  {
    FilterCongruent(ds, q1, category, q2, category);
  }

  // ---------------------------------------------------------------------
  // The screen's state and its handlers
  // ---------------------------------------------------------------------

  /** The two pieces of state of the screen. */
  datatype Filters = Filters(searchQuery: string, selectedCategory: string)

  /** The state when the screen opens. */
  const InitialFilters: Filters := Filters("", All)

  /** The records the screen lists. */
  function Visible(ds: seq<Destination>, f: Filters): seq<Destination> {
    Filter(ds, f.searchQuery, f.selectedCategory)
  }

  /** Typing in the search box: the query is replaced, the category kept, and the clear icon shows for any text. */
  function TypeQuery(f: Filters, query: string): (g: Filters)
    ensures g.searchQuery == query && g.selectedCategory == f.selectedCategory
    ensures ClearOffered(g) <==> query != ""
  {
    f.(searchQuery := query)
  }

  /** Tapping a category pill: the category is replaced and the query kept. */
  function SelectCategory(f: Filters, category: string): (g: Filters)
    ensures g.selectedCategory == category && g.searchQuery == f.searchQuery
  {
    f.(selectedCategory := category)
  }

  /** The clear icon in the search box (shown only while the query is not empty). */
  function ClearSearch(f: Filters): (g: Filters)
    ensures g.selectedCategory == f.selectedCategory
    ensures !ClearOffered(g)
  {
    f.(searchQuery := "")
  }

  predicate ClearOffered(f: Filters) {
    |f.searchQuery| > 0
  }

  /** The "Reset Filters" button (shown only while nothing is listed): both pieces of state go back to their opening values. */
  function ResetFilters(f: Filters): (g: Filters)
    ensures g == InitialFilters
  {
    Filters("", All)
  }

  predicate ResetOffered(ds: seq<Destination>, f: Filters) {
    |Visible(ds, f)| == 0
  }

  /** The screen opens listing every record. */
  lemma {:induction false} InitialShowsAll(ds: seq<Destination>)
    ensures Visible(ds, InitialFilters) == ds
  {
    FilterNothing(ds);
  }

  /**
   * Resetting brings back the opening state, which lists every record; so
   * unless there are no records at all, the reset button disappears.
   */
  lemma ResetShowsAll(ds: seq<Destination>, f: Filters)
    ensures ResetFilters(f) == InitialFilters
    ensures Visible(ds, ResetFilters(f)) == ds
    ensures ds != [] ==> !ResetOffered(ds, ResetFilters(f))
  {
    FilterNothing(ds);
  }

  /**
   * Clearing the search keeps the category and lists exactly that category's
   * records; what was listed before is what the old query picks out of them.
   */
  lemma ClearSearchWidens(ds: seq<Destination>, f: Filters)
    ensures ClearSearch(f).selectedCategory == f.selectedCategory
    ensures !ClearOffered(ClearSearch(f))
    ensures forall d :: d in ds ==> (d in Visible(ds, ClearSearch(f)) <==> MatchesCategory(d, f.selectedCategory))
    ensures Filter(Visible(ds, ClearSearch(f)), f.searchQuery, All) == Visible(ds, f)
  {
    forall d | d in ds {
      EmptyQueryMatches(d);
    }
    FilterIsConjunction(ds, f.searchQuery, f.selectedCategory);
  }

  /**
   * Typing a query that contains the current one (ignoring case), as typing
   * further characters does, lists exactly the current records that match the
   * new query: the listing only narrows.
   */
  lemma TypeQueryNarrows(ds: seq<Destination>, f: Filters, query: string)
    requires Includes(Lower(query), Lower(f.searchQuery))
    ensures Visible(ds, TypeQuery(f, query)) == Filter(Visible(ds, f), query, All)
  {
    forall d | d in ds && MatchesSearch(d, query)
      ensures MatchesSearch(d, f.searchQuery)
    {
      if Includes(Lower(d.name), Lower(query)) {
        IncludesTransitive(Lower(d.name), Lower(query), Lower(f.searchQuery));
      } else {
        IncludesTransitive(Lower(d.location), Lower(query), Lower(f.searchQuery));
      }
    }
    FilterTwice(ds, f.searchQuery, f.selectedCategory, query, All, query, f.selectedCategory);
  }

  /**
   * Tapping a pill lists exactly the records of that category among those the
   * query lists under `All`.
   */
  lemma SelectCategoryNarrows(ds: seq<Destination>, f: Filters, category: string)
    ensures Visible(ds, SelectCategory(f, category)) == Filter(Visible(ds, SelectCategory(f, All)), "", category)
  {
    forall d | d in ds {
      EmptyQueryMatches(d);
    }
    FilterTwice(ds, f.searchQuery, All, "", category, f.searchQuery, category);
  }

  // ---------------------------------------------------------------------
  // The result count line
  // ---------------------------------------------------------------------

  predicate EndsWith(s: string, suffix: string) {
    |suffix| <= |s| && s[|s| - |suffix|..] == suffix
  }

  /**
   * "`n` place found" for exactly one record, "`n` places found" otherwise
   * (zero included). The count reads back from the front of the line.
   */
  function ResultsLabel(count: nat): (s: string)
    ensures ParseInt(s) == Some(count)
    ensures count == 1 <==> EndsWith(s, " place found")
    ensures count != 1 <==> EndsWith(s, " places found")
    ensures |Decimal(count)| <= |s| && s[..|Decimal(count)|] == Decimal(count)
  {
    var tail := if count == 1 then " place found" else " places found";
    LabelReadsBack(count, tail);
    assert (Decimal(count) + tail)[..|Decimal(count)|] == Decimal(count);
    Decimal(count) + tail
  }

  lemma LabelReadsBack(count: nat, tail: string)
    requires tail == " place found" || tail == " places found"
    ensures ParseInt(Decimal(count) + tail) == Some(count)
    ensures EndsWith(Decimal(count) + tail, " place found") <==> tail == " place found"
    ensures EndsWith(Decimal(count) + tail, " places found") <==> tail == " places found"
  {
    ParseDecimalThenSpace(count, tail);
    LabelEnding(Decimal(count), tail);
  }

  lemma ParseDecimalThenSpace(count: nat, tail: string)
    requires tail != [] && tail[0] == ' '
    ensures ParseInt(Decimal(count) + tail) == Some(count)
  {
    assert !IsDigit(tail[0], 10);
    ParseIntNumeral(count, tail);
  }

  /** After a numeral, exactly one of the two endings is present. */
  lemma LabelEnding(digits: string, tail: string)
    requires digits != [] && IsDigit(digits[|digits| - 1], 10)
    requires tail == " place found" || tail == " places found"
    ensures EndsWith(digits + tail, " place found") <==> tail == " place found"
    ensures EndsWith(digits + tail, " places found") <==> tail == " places found"
  {
    var s := digits + tail;
    assert s[|digits|..] == tail;
    if tail == " place found" {
      assert s[|s| - 13] == digits[|digits| - 1];
    } else {
      assert s[|s| - 12] == 'p';
    }
  }

  // ---------------------------------------------------------------------
  // A worked example
  // ---------------------------------------------------------------------

  /** Searching "jai" with every category finds the fort by its name and not the beach. */
  lemma SearchExample(goa: Destination, jaipur: Destination)
    requires goa.name == "Goa Beach" && goa.location == "Goa"
    requires jaipur.name == "Jaipur Fort"
    ensures Filter([goa, jaipur], "jai", All) == [jaipur]
  {
    assert Lower("jai") == "jai";
    assert "jai" <= Lower(jaipur.name);
    LacksFirstChar(Lower(goa.name), "jai");
    LacksFirstChar(Lower(goa.location), "jai");
    assert [goa, jaipur][1..] == [jaipur];
  }

  /** The Beach pill with an empty search finds the beach and not the fort. */
  lemma CategoryExample(goa: Destination, jaipur: Destination)
    requires goa.category == "Beach" && jaipur.category == "Heritage"
    ensures Filter([goa, jaipur], "", "Beach") == [goa]
  {
    EmptyQueryMatches(goa);
    assert [goa, jaipur][1..] == [jaipur];
  }

  /** A text without the needle's first character does not include the needle. */
  lemma {:induction false} LacksFirstChar(hay: string, needle: string)
    requires needle != [] && needle[0] !in hay
    ensures !Includes(hay, needle)
    decreases |hay|
  {
    if hay != [] {
      assert hay[0] in hay;
      LacksFirstChar(hay[1..], needle);
    }
  }
}

=== FILE: js_text.dfy ===
/**
 * The few JavaScript string operations the screens rely on:
 * `toLowerCase` (over ASCII letters), `includes`, `parseInt` with no radix
 * argument, and the decimal rendering of a non-negative integer.
 */
module JsText {
  import opened Options

  // ---------------------------------------------------------------------
  // toLowerCase
  // ---------------------------------------------------------------------

  predicate IsUpper(c: char) {
    'A' <= c <= 'Z'
  }

  /** One character of `toLowerCase`, restricted to ASCII letters. */
  function LowerChar(c: char): (r: char)
    ensures !IsUpper(r)
    ensures !IsUpper(c) ==> r == c
    ensures IsUpper(c) ==> 'a' <= r <= 'z' && r as int - c as int == 32
  {
    if IsUpper(c) then (c as int + 32) as char else c
  }

  /** `s.toLowerCase()`: every ASCII capital replaced by its small letter. */
  function Lower(s: string): (r: string)
    ensures |r| == |s|
    ensures forall i :: 0 <= i < |r| ==> !IsUpper(r[i])
    ensures forall i :: 0 <= i < |s| && !IsUpper(s[i]) ==> r[i] == s[i]
    ensures forall i :: 0 <= i < |s| && IsUpper(s[i]) ==> r[i] as int == s[i] as int + 32
  {
    seq(|s|, i requires 0 <= i < |s| => LowerChar(s[i]))
  }

  // ---------------------------------------------------------------------
  // includes
  // ---------------------------------------------------------------------

  /** `needle` occurs in `hay` starting at index `i`. */
  predicate OccursAt(hay: string, needle: string, i: nat) {
    i + |needle| <= |hay| && hay[i..i + |needle|] == needle
  }

  /** `hay.includes(needle)`, by scanning the start positions left to right. */
  function Includes(hay: string, needle: string): bool
    decreases |hay|
  {
    if needle <= hay then true
    else if hay == [] then false
    else Includes(hay[1..], needle)
  }

  /** `includes` holds exactly when the needle occurs at some position. */
  lemma {:induction false} IncludesIff(hay: string, needle: string)
    ensures Includes(hay, needle) <==> exists i: nat :: OccursAt(hay, needle, i)
    decreases |hay|
  {
    if needle <= hay {
      assert OccursAt(hay, needle, 0);
    } else if hay == [] {
      assert needle != [];
    } else {
      IncludesIff(hay[1..], needle);
      if exists i: nat :: OccursAt(hay[1..], needle, i) {
        var i: nat :| OccursAt(hay[1..], needle, i);
        OccursShift(hay, needle, i);
      }
      if exists i: nat :: OccursAt(hay, needle, i) {
        var i: nat :| OccursAt(hay, needle, i);
        assert i != 0;
        OccursShift(hay, needle, i - 1);
      }
    }
  }

  /** An occurrence in the tail is an occurrence one place further right in the whole. */
  lemma OccursShift(hay: string, needle: string, i: nat)
    requires hay != []
    ensures OccursAt(hay[1..], needle, i) <==> OccursAt(hay, needle, i + 1)
  {
    if i + |needle| < |hay| {
      assert hay[1..][i..i + |needle|] == hay[i + 1..i + 1 + |needle|];
    }
  }

  /** A text that includes `mid` includes everything `mid` includes. */
  lemma IncludesTransitive(hay: string, mid: string, needle: string)
    requires Includes(hay, mid) && Includes(mid, needle)
    ensures Includes(hay, needle)
  {
    IncludesIff(hay, mid);
    IncludesIff(mid, needle);
    var i: nat :| OccursAt(hay, mid, i);
    var j: nat :| OccursAt(mid, needle, j);
    var inner := hay[i..i + |mid|][j..j + |needle|];
    forall k | 0 <= k < |needle|
      ensures inner[k] == hay[i + j..i + j + |needle|][k]
    {
      assert inner[k] == hay[i + j + k];
    }
    assert inner == hay[i + j..i + j + |needle|];
    assert OccursAt(hay, needle, i + j);
    IncludesIff(hay, needle);
  }

  /** Every string includes the empty string. */
  lemma IncludesEmpty(hay: string)
    ensures Includes(hay, "")
  {
  }

  // ---------------------------------------------------------------------
  // parseInt (no radix argument)
  // ---------------------------------------------------------------------

  /** The characters `parseInt` skips at the front: white space and line terminators. */
  predicate IsStrWhiteSpace(c: char) {
    c == '\t' || c == '\n' || c == '\U{000B}' || c == '\U{000C}' || c == '\r' || c == ' '
    || c == '\U{00A0}' || c == '\U{1680}' || '\U{2000}' <= c <= '\U{200A}'
    || c == '\U{2028}' || c == '\U{2029}' || c == '\U{202F}' || c == '\U{205F}'
    || c == '\U{3000}' || c == '\U{FEFF}'
  }

  /** `s` with its leading white space removed. */
  function TrimStart(s: string): (r: string)
    ensures |r| <= |s| && r == s[|s| - |r|..]
    ensures forall i :: 0 <= i < |s| - |r| ==> IsStrWhiteSpace(s[i])
    ensures r == [] || !IsStrWhiteSpace(r[0])
  {
    if s != [] && IsStrWhiteSpace(s[0]) then TrimStart(s[1..]) else s
  }

  /** The value of a digit in any radix up to 16; 16 for a character that is no such digit. */
  function DigitValue(c: char): (v: nat)
    ensures v <= 16
    ensures '0' <= c <= '9' ==> v == c as int - '0' as int
  {
    if '0' <= c <= '9' then c as int - '0' as int
    else if 'a' <= c <= 'f' then c as int - 'a' as int + 10
    else if 'A' <= c <= 'F' then c as int - 'A' as int + 10
    else 16
  }

  predicate IsDigit(c: char, radix: nat) {
    DigitValue(c) < radix
  }

  /** Length of the longest prefix of `s` made of digits of `radix`. */
  function DigitRun(s: string, radix: nat): (n: nat)
    ensures n <= |s|
    ensures forall i :: 0 <= i < n ==> IsDigit(s[i], radix)
    ensures n < |s| ==> !IsDigit(s[n], radix)
  {
    if s == [] || !IsDigit(s[0], radix) then 0 else 1 + DigitRun(s[1..], radix)
  }

  /** The number a string of digits denotes in `radix`, most significant first. */
  function DigitsValue(z: string, radix: nat): nat {
    if z == [] then 0 else DigitsValue(z[..|z| - 1], radix) * radix + DigitValue(z[|z| - 1])
  }

  /**
   * `parseInt(s)`: skip leading white space, read an optional sign, switch to
   * radix 16 after a `0x` or `0X` prefix, and read the longest run of digits;
   * `None` stands for NaN, the result when that run is empty.
   */
  function ParseInt(s: string): (r: Option<int>)
    ensures r == None <==> !StartsNumber(TrimStart(s))
  {
    SignedNaN(TrimStart(s));
    ParseSigned(TrimStart(s))
  }

  /**
   * Whether `t`, read from its first character, begins a number: an optional
   * sign, then a decimal digit, or `0x`/`0X` followed by a hexadecimal digit.
   */
  predicate StartsNumber(t: string) {
    if t != [] && (t[0] == '+' || t[0] == '-') then StartsMagnitude(t[1..]) else StartsMagnitude(t)
  }

  predicate StartsMagnitude(u: string) {
    if |u| >= 2 && u[0] == '0' && (u[1] == 'x' || u[1] == 'X') then |u| >= 3 && IsDigit(u[2], 16)
    else u != [] && IsDigit(u[0], 10)
  }

  /** The reading after the white space is NaN exactly when no number begins there. */
  lemma SignedNaN(t: string)
    ensures ParseSigned(t) == None <==> !StartsNumber(t)
  {
    if t != [] && (t[0] == '+' || t[0] == '-') {
      MagnitudeNaN(t[1..]);
    } else {
      MagnitudeNaN(t);
    }
  }

  lemma MagnitudeNaN(u: string)
    ensures ParseMagnitude(u) == None <==> !StartsMagnitude(u)
  {
    if |u| >= 2 && u[0] == '0' && (u[1] == 'x' || u[1] == 'X') {
      var v := u[2..];
      assert |u| >= 3 ==> v[0] == u[2];
      assert DigitRun(v, 16) == 0 <==> v == [] || !IsDigit(v[0], 16);
    } else {
      assert DigitRun(u, 10) == 0 <==> u == [] || !IsDigit(u[0], 10);
    }
  }

  /** `parseInt` after the white space: an optional sign, then the magnitude. */
  function ParseSigned(t: string): Option<int> {
    if t != [] && t[0] == '-' then
      match ParseMagnitude(t[1..])
      case None => None
      case Some(m) => Some(-(m as int))
    else if t != [] && t[0] == '+' then ParseMagnitude(t[1..])
    else ParseMagnitude(t)
  }

  /** `parseInt` after the sign: hexadecimal after `0x` or `0X`, decimal otherwise. */
  function ParseMagnitude(u: string): Option<nat> {
    if |u| >= 2 && u[0] == '0' && (u[1] == 'x' || u[1] == 'X') then LeadingNumber(u[2..], 16)
    else LeadingNumber(u, 10)
  }

  /** The number written by the longest run of digits at the start of `v`; `None` if there is none. */
  function LeadingNumber(v: string, radix: nat): Option<nat> {
    var n := DigitRun(v, radix);
    if n == 0 then None else Some(DigitsValue(v[..n], radix))
  }

  // ---------------------------------------------------------------------
  // Decimal rendering of a count (how `{n}` appears in text)
  // ---------------------------------------------------------------------

  function DigitChar(d: nat): (c: char)
    requires d < 10
    ensures IsDigit(c, 10) && DigitValue(c) == d
  {
    ('0' as int + d) as char
  }

  /** The decimal numeral of `n`, as JavaScript renders a non-negative integer. */
  function Decimal(n: nat): (r: string)
    ensures |r| >= 1
    ensures forall i :: 0 <= i < |r| ==> IsDigit(r[i], 10)
    ensures DigitsValue(r, 10) == n
    ensures r[0] == '0' ==> n == 0
    ensures r[0] == '0' ==> r == "0"
  {
    if n < 10 then [DigitChar(n)]
    else
      var r := Decimal(n / 10) + [DigitChar(n % 10)];
      assert r[..|r| - 1] == Decimal(n / 10);
      assert r[0] == Decimal(n / 10)[0];
      r
  }

  /** A run of digits followed by a non-digit ends where the digits end. */
  lemma {:induction false} DigitRunOfDigits(p: string, s: string, radix: nat)
    requires forall i :: 0 <= i < |p| ==> IsDigit(p[i], radix)
    requires s == [] || !IsDigit(s[0], radix)
    ensures DigitRun(p + s, radix) == |p|
  {
    if p != [] {
      assert (p + s)[1..] == p[1..] + s;
      DigitRunOfDigits(p[1..], s, radix);
    }
  }

  /** Leading white space never changes what `parseInt` returns. */
  lemma {:induction false} ParseIntSkipsWhiteSpace(w: string, s: string)
    requires forall i :: 0 <= i < |w| ==> IsStrWhiteSpace(w[i])
    ensures ParseInt(w + s) == ParseInt(s)
  {
    TrimStartSkipsWhiteSpace(w, s);
  }

  lemma {:induction false} TrimStartSkipsWhiteSpace(w: string, s: string)
    requires forall i :: 0 <= i < |w| ==> IsStrWhiteSpace(w[i])
    ensures TrimStart(w + s) == TrimStart(s)
  {
    if w != [] {
      assert (w + s)[0] == w[0] && (w + s)[1..] == w[1..] + s;
      TrimStartSkipsWhiteSpace(w[1..], s);
    } else {
      assert w + s == s;
    }
  }

  /**
   * `parseInt` reads back the numeral of `n` after a sign, whatever follows
   * that does not continue the numeral (after a lone `0`, an `x` or `X`
   * would switch to hexadecimal).
   */
  lemma ParseIntSignedNumeral(sign: char, n: nat, s: string)
    requires sign == '+' || sign == '-'
    requires s == [] || (!IsDigit(s[0], 10) && (n == 0 ==> s[0] != 'x' && s[0] != 'X'))
    ensures ParseInt([sign] + (Decimal(n) + s)) == Some(if sign == '-' then -(n as int) else n)
  {
    MagnitudeOfDecimal(n, s);
    SignedMagnitude(sign, Decimal(n) + s, n);
  }

  /** `parseInt` reads back the numeral of `n`, whatever follows that does not continue the numeral. */
  lemma ParseIntNumeral(n: nat, s: string)
    requires s == [] || (!IsDigit(s[0], 10) && (n == 0 ==> s[0] != 'x' && s[0] != 'X'))
    ensures ParseInt(Decimal(n) + s) == Some(n)
  {
    MagnitudeOfDecimal(n, s);
    UnsignedMagnitude(Decimal(n), s);
  }

  /** With no sign and no white space, `parseInt` is the magnitude's reading. */
  lemma UnsignedMagnitude(d: string, s: string)
    requires d != [] && IsDigit(d[0], 10)
    ensures ParseInt(d + s) == ParseMagnitude(d + s)
  {
    var t := d + s;
    assert t[0] == d[0];
    TrimStartNoWhiteSpace(t);
  }

  /** A sign in front of a magnitude: `-` negates it, `+` keeps it. */
  lemma SignedMagnitude(sign: char, u: string, m: nat)
    requires sign == '+' || sign == '-'
    requires ParseMagnitude(u) == Some(m)
    ensures ParseInt([sign] + u) == Some(if sign == '-' then -(m as int) else m)
  {
    var t := [sign] + u;
    assert t[0] == sign && t[1..] == u;
    TrimStartNoWhiteSpace(t);
  }

  lemma TrimStartNoWhiteSpace(t: string)
    requires t != [] && !IsStrWhiteSpace(t[0])
    ensures TrimStart(t) == t
  {
  }

  lemma MagnitudeOfDecimal(n: nat, s: string)
    requires s == [] || (!IsDigit(s[0], 10) && (n == 0 ==> s[0] != 'x' && s[0] != 'X'))
    ensures ParseMagnitude(Decimal(n) + s) == Some(n)
  {
    var d := Decimal(n);
    var u := d + s;
    if |u| >= 2 && u[0] == '0' {
      assert d[0] == '0';
      assert |d| == 1;
      assert u[1] == s[0];
    }
    DigitRunOfDigits(d, s, 10);
    assert u[..|d|] == d;
  }

  /** `parseInt` is NaN when the first character after the white space can start no number. */
  lemma ParseIntNaN(w: string, c: char, s: string)
    requires forall i :: 0 <= i < |w| ==> IsStrWhiteSpace(w[i])
    requires !IsStrWhiteSpace(c) && !IsDigit(c, 10) && c != '+' && c != '-'
    ensures ParseInt(w + [c] + s) == None
  {
    ParseIntSkipsWhiteSpace(w, [c] + s);
    assert w + [c] + s == w + ([c] + s);
  }

  /** A sign followed by no decimal digit (`"-"`, `"+x"`) makes `parseInt` NaN. */
  lemma {:induction false} ParseIntSignNaN(w: string, sign: char, s: string)
    requires forall i :: 0 <= i < |w| ==> IsStrWhiteSpace(w[i])
    requires sign == '+' || sign == '-'
    requires s == [] || !IsDigit(s[0], 10)
    ensures ParseInt(w + [sign] + s) == None
  {
    var t := [sign] + s;
    assert w + [sign] + s == w + t;
    ParseIntSkipsWhiteSpace(w, t);
    SignNaN(sign, s);
  }

  lemma SignNaN(sign: char, s: string)
    requires sign == '+' || sign == '-'
    requires s == [] || !IsDigit(s[0], 10)
    ensures ParseInt([sign] + s) == None
  {
    var t := [sign] + s;
    assert t[0] == sign && t[1..] == s;
    TrimStartNoWhiteSpace(t);
    assert !StartsMagnitude(s);
  }

  /** `0x` or `0X` followed by no hexadecimal digit (`"0x"`, `"0xg"`) makes `parseInt` NaN. */
  lemma {:induction false} ParseIntHexNaN(w: string, x: char, s: string)
    requires forall i :: 0 <= i < |w| ==> IsStrWhiteSpace(w[i])
    requires x == 'x' || x == 'X'
    requires s == [] || !IsDigit(s[0], 16)
    ensures ParseInt(w + ['0', x] + s) == None
  {
    var t := ['0', x] + s;
    assert w + ['0', x] + s == w + t;
    ParseIntSkipsWhiteSpace(w, t);
    HexPrefixNaN(x, s);
  }

  lemma HexPrefixNaN(x: char, s: string)
    requires x == 'x' || x == 'X'
    requires s == [] || !IsDigit(s[0], 16)
    ensures ParseInt(['0', x] + s) == None
  {
    var t := ['0', x] + s;
    assert t[0] == '0' && t[1] == x && (|t| >= 3 ==> t[2] == s[0]);
    TrimStartNoWhiteSpace(t);
    assert !StartsMagnitude(t);
  }

  /**
   * `parseInt` reads any run of decimal digits, leading zeros included
   * (`"007"` is 7), up to the first character that does not continue it;
   * only a lone `0` followed by `x` or `X` is read as a hexadecimal prefix.
   */
  lemma ParseIntDigits(p: string, s: string)
    requires p != [] && forall i :: 0 <= i < |p| ==> IsDigit(p[i], 10)
    requires s == [] || !IsDigit(s[0], 10)
    requires !(p == "0" && s != [] && (s[0] == 'x' || s[0] == 'X'))
    ensures ParseInt(p + s) == Some(DigitsValue(p, 10))
  {
    MagnitudeOfDigits(p, s);
    UnsignedMagnitude(p, s);
  }

  /** NaN stays NaN; a number changes sign. */
  function Negated(r: Option<int>): (q: Option<int>)
    ensures q == None <==> r == None
    ensures q.Some? ==> q.value + r.value == 0
  {
    match r
    case None => None
    case Some(v) => Some(-v)
  }

  /**
   * A sign in front of text that starts with a digit: `-` negates what
   * `parseInt` reads from that text (`"-007"` is -7, `"-0x1F"` is -31),
   * `+` leaves it as it is.
   */
  lemma ParseIntSign(sign: char, t: string)
    requires sign == '+' || sign == '-'
    requires t != [] && IsDigit(t[0], 10)
    ensures ParseInt([sign] + t) == if sign == '-' then Negated(ParseInt(t)) else ParseInt(t)
  {
    var u := [sign] + t;
    assert u[0] == sign;
    TrimStartNoWhiteSpace(u);
    TrimStartNoWhiteSpace(t);
    SignedOf(sign, t);
  }

  lemma SignedOf(sign: char, t: string)
    requires sign == '+' || sign == '-'
    requires t != [] && t[0] != '+' && t[0] != '-'
    ensures ParseSigned([sign] + t) == if sign == '-' then Negated(ParseSigned(t)) else ParseSigned(t)
  {
    assert ([sign] + t)[1..] == t;
  }

  lemma MagnitudeOfDigits(p: string, s: string)
    requires p != [] && forall i :: 0 <= i < |p| ==> IsDigit(p[i], 10)
    requires s == [] || !IsDigit(s[0], 10)
    requires !(p == "0" && s != [] && (s[0] == 'x' || s[0] == 'X'))
    ensures ParseMagnitude(p + s) == Some(DigitsValue(p, 10))
  {
    var u := p + s;
    if |u| >= 2 && u[0] == '0' {
      if |p| >= 2 {
        assert u[1] == p[1];
      } else {
        assert p == "0";
        assert u[1] == s[0];
      }
    }
    DigitRunOfDigits(p, s, 10);
    assert u[..|p|] == p;
  }

  /**
   * After `0x` or `0X`, `parseInt` reads the run of hexadecimal digits
   * (`"0x1F"` is 31) up to the first character that is not one.
   */
  lemma ParseIntHex(x: char, h: string, s: string)
    requires x == 'x' || x == 'X'
    requires h != [] && forall i :: 0 <= i < |h| ==> IsDigit(h[i], 16)
    requires s == [] || !IsDigit(s[0], 16)
    ensures ParseInt(['0', x] + h + s) == Some(DigitsValue(h, 16))
  {
    var u := ['0', x] + (h + s);
    assert ['0', x] + h + s == u;
    MagnitudeOfHex(x, h, s);
    PlainMagnitude(u);
  }

  /** A text that starts with `0` is read by `parseInt` as a magnitude. */
  lemma PlainMagnitude(u: string)
    requires u != [] && u[0] == '0'
    ensures ParseInt(u) == ParseMagnitude(u)
  {
    TrimStartNoWhiteSpace(u);
  }

  lemma MagnitudeOfHex(x: char, h: string, s: string)
    requires x == 'x' || x == 'X'
    requires h != [] && forall i :: 0 <= i < |h| ==> IsDigit(h[i], 16)
    requires s == [] || !IsDigit(s[0], 16)
    ensures ParseMagnitude(['0', x] + (h + s)) == Some(DigitsValue(h, 16))
  {
    var u := ['0', x] + (h + s);
    assert u[0] == '0' && u[1] == x && u[2..] == h + s;
    DigitRunOfDigits(h, s, 16);
    assert (h + s)[..|h|] == h;
  }
}

=== FILE: options.dfy ===
/** An optional value: stands for JavaScript's `undefined`/`null` and for NaN where a number may be missing. */
module Options {
  datatype Option<+T> = None | Some(value: T)
}

=== FILE: travel_data.dfy ===
/**
 * The read-only records the screens display. The records themselves live in a
 * data module that is not part of this model; every operation takes them as
 * parameters.
 */
module TravelData {
  /** A place to visit. Prices are whole rupees. */
  datatype Destination = Destination(
    id: int,
    name: string,
    location: string,
    category: string,
    price: int,
    duration: string,
    description: string)

  /** A bundle of destinations sold together, with its own price. */
  datatype TourPackage = TourPackage(
    id: int,
    name: string,
    destinations: seq<string>,
    price: int,
    duration: string)

  /** The company's contact details shown on the contact screen. */
  datatype CompanyInfo = CompanyInfo(
    name: string,
    tagline: string,
    phone: string,
    email: string,
    address: string,
    website: string)
}
